=== FILE: README.md ===
# Video player controls, modelled in Dafny

This project models the controller behind a custom control bar for an HTML
video element (`script.js`). The bar offers play/pause, a clickable progress
track with elapsed and total time labels, a clickable volume track with a
mute icon, and a fullscreen button. Each handler is a pure transition over one
immutable `PlayerState` record. The record holds the media element's `paused`,
`currentTime`, `duration` and `volume`. It also holds the play button's class
list and title, the bar widths in percent, the two time labels, the volume
icon and title, and the script's globals `lastVolume` and `fullscreen`.

Fractions, times and volumes are Dafny `real`s. That is exact arithmetic, not
IEEE doubles. `Math.floor` and JavaScript's `%` are written out explicitly:
`TimeFormat.JsRem` is `%`, and `TimeFormat.Trunc` captures how `%` truncates
its quotient toward zero. The time labels are
strings, and the bar widths are the numbers the script writes in front of `%`.

Modules, one per part of the controller:

- `Decimal`: how JavaScript writes a whole number, and how to read it back.
- `TimeFormat`: `displayTime` and the `"M:SS"` reader it round-trips with.
- `Player`: the state record.
- `Transport`: `togglePlay`, `showPlayIcon` and the `ended` notification.
- `Progress`: `updateProgress` and `setProgress`.
- `Volume`: `changeVolume` and `toggleMute`, plus corrected forms of two defects (see Findings).
- `Fullscreen`: `toggleFullscreen`, with the flag and the `video-fullscreen` class.
- `Controller`: one step per event the script listens to, and a run over an event sequence, with the state invariant proved for both.

Platform facts the model relies on:

- The `ended` notification leaves the element paused before the script's
  listener runs. The HTML standard's steps for reaching the end of the media
  say so.
- `classList.replace(a, b)` changes nothing when `a` is absent. `ShowPlayIcon`
  and `TogglePlay` are stated for any class list. Their sync guarantees assume
  the button shows exactly one of `fa-play` and `fa-pause`.
- Setting `volume` outside 0..1 throws. `Volume.Snap` is shown to keep every
  click fraction inside that range.

## Model

| member | source | states |
|---|---|---|
| Decimal.NatToString | script.js:44 | `${minutes}` is a canonical digit string: it has one digit exactly when the number is below 10, and it starts with '0' only for zero |
| Decimal.ParseNatToString | script.js:44 | reading the rendered minutes back as decimal gives the minutes count |
| Decimal.NatToStringParse | script.js:44 | every canonical digit string is the rendering of the number it denotes, so the rendering hits each such string exactly once |
| Decimal.NatToStringInjective | script.js:44 | distinct minute counts render as distinct texts |
| TimeFormat.Trunc | script.js:41 | the truncation inside `%` gives the integer next to its argument on the side of zero, for both signs |
| TimeFormat.JsRem | script.js:41 | `a % b` leaves a whole multiple of b behind, keeps the sign of the dividend and stays below a positive divisor in size |
| TimeFormat.Minutes | script.js:39 | Math.floor(time / 60) is the number of whole minutes in the whole seconds elapsed: 60·m <= floor(t) < 60·m + 60 |
| TimeFormat.Seconds | script.js:41 | Math.floor(time % 60) lies in 0..59 for every non-negative time |
| TimeFormat.ClockDecomposition | script.js:39-41 | 60 times the minutes plus the seconds equals the whole seconds of the time |
| TimeFormat.PadSeconds | script.js:43 | the seconds field is always exactly two digits, and those digits read back as the seconds value |
| TimeFormat.DisplayTime | script.js:38-45 | the text reads back as "M:SS" with M = floor(t/60), SS = floor(t mod 60) < 60, and 60*M + SS = floor(t) |
| TimeFormat.FormatClock | script.js:44 | the template text is a canonical minutes number, a colon and a two-digit field; ParseFormatClock pins both values |
| TimeFormat.ParseFormatClock | script.js:44 | reading the "M:SS" text built from a minutes and a seconds value gives those values back |
| TimeFormat.FormatParseClock | script.js:44 | every text the reader accepts is the text built from what it reads |
| TimeFormat.ShowsTimeUnique | script.js:38-45 | displayTime's text is the only text that shows the time's whole seconds as minutes and seconds |
| TimeFormat.DisplayTimeExamples | script.js:38-45 | 0 gives "0:00", 65 gives "1:05", 600 gives "10:00", 59.9 gives "0:59" |
| Transport.ReplaceClass | script.js:17 | classList.replace swaps the token when present, leaves the list unchanged when absent, and adds nothing but the replacement |
| Transport.ShowPlayIcon | script.js:16-19 | whatever the button held, fa-pause is gone and the title is "Play"; fa-play is present exactly when either glyph was before; every other class token stays and none is added; no other field changes |
| Transport.TogglePlay | script.js:21-30 | flips paused; sets the title on every call, "Pause" when it starts playback and "Play" when it pauses; keeps every class token other than the two glyphs and adds nothing but a glyph; on a button showing one glyph, afterwards fa-pause appears exactly when the element plays |
| Transport.Ended | script.js:33 | the end of media leaves the element paused with title "Play" and no fa-pause; fa-play is present exactly when the button showed either glyph before, so a button showing one glyph ends in sync; other class tokens are kept |
| Transport.TogglePlayInvolution | script.js:21-30 | on a button in sync with the element, two toggles give back the same state |
| Transport.TogglePlayTitles | script.js:21-30 | from paused, one toggle shows "Pause" and fa-pause, a second shows "Play" and fa-play |
| Transport.ShowPlayIconIdempotent | script.js:16-19 | running showPlayIcon again, as when the media ends a second time with no play in between, changes nothing further |
| Progress.UpdateProgress | script.js:48-55 | the bar is the percentage currentTime makes of duration (within 0..100 while inside the medium); the labels show the elapsed time followed by " /" and the duration |
| Progress.SetProgress | script.js:60-66 | the bar is the percentage the click offset makes of the track width; the new position makes the same percentage of the duration |
| Progress.SeekWithinTrack | script.js:60-66 | a click inside the track seeks inside 0..duration and keeps the bar in 0..100 |
| Progress.SeekMonotonic | script.js:60-66 | a click further along the track never seeks earlier |
| Progress.SeekThenUpdateAgree | script.js:48-66 | the next position update after a seek redraws the bar at the width the click gave it |
| Volume.Snap | script.js:94-101 | every click fraction snaps into {0} ∪ [0.1, 0.9] ∪ {1}: to 0 exactly below 0.1, to 1 exactly above 0.9, and otherwise unchanged |
| Volume.SnapIdempotent | script.js:94-101 | snapping a snapped volume changes nothing |
| Volume.IconForVolume | script.js:107-114 | fa-volume-up exactly above 0.7, fa-volume-down exactly strictly between 0 and 0.7, fa-volume-off exactly at 0, no class at exactly 0.7 |
| Volume.ChangeVolume | script.js:93-117 | the snapped fraction becomes the volume, the bar width divided by 100 and lastVolume; the icon shows its tier; the volume title and everything else are untouched |
| Volume.ChangeVolumePreservesInvariant | script.js:93-117 | after any volume click, volume and lastVolume lie in 0..1 and the bar is 100 times the volume |
| Volume.ToggleMute | script.js:74-89 | a nonzero volume is saved to lastVolume and muted with fa-volume-mute, "Unmute" and bar 0; a zero volume takes lastVolume back with fa-volume-up, "Mute" and bar lastVolume*100, leaving lastVolume alone |
| Volume.ToggleMutePreservesInvariant | script.js:74-89 | toggling mute keeps volume and lastVolume in 0..1 and the bar at 100 times the volume |
| Volume.MuteUnmuteRoundTrip | script.js:74-89 | from a nonzero volume v, mute then unmute restores the element, lastVolume = v, bar v*100 and title "Mute" |
| Volume.UnmuteMuteRoundTrip | script.js:74-89 | from silence with a nonzero lastVolume, unmute then mute gives back silence, the same lastVolume and "Unmute" |
| Volume.SeventyPercentClearsIcon | script.js:107-114 | as written, a click at exactly 70% of the track sets volume 0.7 and leaves the icon with no classes |
| Volume.IntendedIconForVolume | script.js:107-114 | the corrected tiers: every valid volume gets a glyph, with fa-volume-down for 0 < v <= 0.7 |
| Volume.IntendedIconAgreesOffSeventy | script.js:107-114 | the corrected tiers agree with the written ones exactly at every valid volume other than 0.7 |
| Volume.UnmuteAfterSnapToZeroIsSilent | script.js:83-116 | as written, after a click that snaps to 0, unmuting leaves volume 0 while the icon shows fa-volume-up and the title "Mute" |
| Volume.IntendedChangeVolume | script.js:93-117 | the corrected handler sets the snapped volume and bar, records lastVolume only when it is nonzero, and shows the corrected tier for the new volume (IntendedIconForVolume), so always a glyph |
| Volume.IntendedChangeVolumeKeepsAudible | script.js:93-117 | with the corrected handler, lastVolume stays in (0, 1] |
| Volume.ToggleMuteKeepsAudible | script.js:74-89 | toggleMute saves only nonzero volumes, so lastVolume stays in (0, 1] |
| Volume.IntendedUnmuteIsAudible | script.js:83-88 | with the corrected handler, unmuting after a click that snapped to 0 restores a volume above 0 |
| Fullscreen.ToggleFullscreen | script.js:167-175 | negates the flag on every call; the video-fullscreen class ends up matching the new flag; entering is requested exactly when the flag was down |
| Fullscreen.ToggleFullscreenTwice | script.js:167-175 | two toggles restore the flag and the class, with one enter and one exit request |
| Controller.Start | script.js:71-164 | the starting state has lastVolume = 1 (line 71) and the fullscreen flag down (line 164) for a medium of the given duration |
| Controller.StartIsGood | script.js:71-164 | the starting state (lastVolume = 1, fullscreen = false, element paused at 0 with volume 1) satisfies both the as-written and the corrected invariant, so Run's invariant and IntendedRun's stronger one hold after any admissible events from the start |
| Controller.StepFullscreen | script.js:167-190 | of all handlers, only the fullscreen button moves the fullscreen flag, and it always flips it |
| Controller.PositionUpdateKeepsGood | script.js:48-55 | a position update inside the medium keeps the controller invariant |
| Controller.ProgressClickKeepsGood | script.js:60-66 | a click inside the progress track keeps the controller invariant |
| Controller.Step | script.js:178-190 | every handler keeps the invariant: loaded medium, position in range, the progress bar at currentTime / duration · 100 and the volume bar at volume · 100 (both in 0..100), volumes in 0..1, play button in sync with paused, layout class matching the fullscreen flag |
| Controller.Run | script.js:178-190 | the invariant holds after every handler of any sequence of admissible events (so each bar shows its value, as last reported or set, as a percentage of its maximum), and the duration never changes |
| Controller.RunFullscreenParity | script.js:164-175 | after any event sequence, the fullscreen flag equals its start value flipped once per fullscreen click |
| Controller.PausedChangesOnlyByTransport | script.js:178-190 | only play clicks and the end of media change the paused flag |
| Controller.IntendedStep | script.js:93-117 | with the corrected changeVolume, every handler also keeps lastVolume audible and a glyph on the volume icon, so unmuting from silence always restores a volume above 0 |
| Controller.IntendedRun | script.js:93-117 | the corrected controller keeps its stronger invariant (audible lastVolume, a glyph on the volume icon) after any sequence of admissible events, and the duration never changes |

## Findings

| source | as written | input that shows it | evidently intended | confidence | as-written member | corrected member |
|---|---|---|---|---|---|---|
| script.js:108-114 | `volume > 0.7`, then `volume < 0.7 && volume > 0`, then `volume === 0`; the class list was cleared just before | a click 70 px into a 100 px volume track (fraction exactly 0.7, also in IEEE doubles) | three tiers covering every volume, with 0 < v <= 0.7 as fa-volume-down | medium; not executed | Volume.SeventyPercentClearsIcon | Volume.IntendedIconForVolume |
| script.js:116 | `lastVolume = volume` also when the click snapped the volume to 0 | a click in the first 10% of the volume track, then a click on the volume icon: volume stays 0 while the icon shows fa-volume-up and the title offers "Mute" | unmuting restores the last audible volume | medium; not executed | Volume.UnmuteAfterSnapToZeroIsSilent | Volume.IntendedChangeVolume |

The as-written handlers stay in `Controller.Step`, because the model follows
the code. `Controller.IntendedStep` is the same controller with the corrected
`changeVolume` (corrected tiers and corrected `lastVolume` update). It keeps
a stronger invariant, and `Controller.IntendedRun` carries that invariant over
any sequence of events.

## Left out

- Controller.Step: the model's `currentTime` is the position at the last 'timeupdate' or 'canplay' notification or seek. The element keeps moving between notifications, and `video.play()` on a medium that has ended rewinds it to 0 before the next redraw. So the progress-bar clause of `Controller.Good` holds for the last reported or seeked-to position, not for the live playback position.
- DOM lookups and listener registration (script.js:1-12, 177-190): plumbing. The events they wire up are `Controller.Event`.
- `changeSpeed` (script.js:121-124): it copies the selector's value into `playbackRate` with no logic of its own.
- The vendor-prefixed probing in `openFullscreen` and `closeFullscreen` (script.js:129-162): these are calls into the platform. Only the enter/exit request, the `video-fullscreen` class and the flag are modelled.
- Pausing or playing by the platform itself, for example media keys or a picture-in-picture window: the script has no 'pause' or 'play' listener, so the play button can go out of step with the element. The model has no such event, and `Transport.PlayIconInSync` is part of `Controller.Good` only because of that.
- Controller.Start: the play button's classes ("fas fa-play"), the titles, the icon and the label texts before the first update come from the page's markup, which is not part of this model. Start takes a play button showing fa-play titled "Play" and a full-volume icon titled "Mute", the state the handlers themselves draw for a paused, unmuted element.
- Leaving fullscreen by a platform gesture such as Escape: the script never sees it, so the flag can go out of step with the screen. The model has no such event.
- Whether `video.play()` actually starts playback: the platform may refuse, for example under an autoplay policy. The model takes the call to clear `paused`.
- Floating point: all arithmetic is exact over `real`. IEEE rounding, NaN and infinities are not modelled.
- Progress.UpdateProgress: requires `duration > 0` and `currentTime >= 0`. Before the medium loads, the script divides by a NaN duration and shows "NaN:0NaN", since `NaN > 9` is false and a "0" is put in front. An endless stream shows "Infinity:0NaN", since `Infinity % 60` is NaN. Neither case is modelled.
- TimeFormat.DisplayTime: requires a non-negative time, because media positions and durations are never negative. JavaScript's exponent notation for numbers of 10^21 or more is not modelled.
- Progress.SetProgress: requires a track of positive width, because the click can only land on a laid-out track. The element's own clamping of `currentTime` to the medium's length is not modelled. `Controller.Admissible` keeps progress clicks inside the track instead.
- CSS strings: bar widths are kept as the numbers written before `%`. `volumeBar.style.width = 0` in `toggleMute` is width 0.

=== FILE: controller.dfy ===
/**
 The controller as a whole: each event the script listens to (script.js lines
 178-190, together with the media element's own 'ended', 'timeupdate' and
 'canplay' notifications) runs one handler, and the state invariant below
 holds after any sequence of them.
 */
module Controller {
  import opened Player
  import Transport
  import Progress
  import Volume
  import Fullscreen

  datatype Event =
    | PlayClick                               // play button or the video itself
    | MediaEnded                              // 'ended'
    | PositionUpdate(position: real)          // the element reached position; 'timeupdate' or 'canplay'
    | ProgressClick(offsetX: real, width: real)
    | VolumeClick(offsetX: real, width: real)
    | VolumeIconClick
    | FullscreenClick

  /** Events that can reach the handlers: tracks are laid out, progress clicks
      land inside their track, and the element only reports positions inside
      the medium. Volume clicks need no bound, since snapping keeps any
      fraction a valid volume. */
  predicate Admissible(duration: real, e: Event) {
    match e
    case PositionUpdate(position) => 0.0 <= position <= duration
    case ProgressClick(offsetX, width) => 0.0 < width && 0.0 <= offsetX <= width
    case VolumeClick(_, width) => 0.0 < width
    case _ => true
  }

  /** The controller's state invariant for a loaded medium: in particular both
      bars show their value as a percentage of its maximum, the position being
      the one last reported by the element or set by a seek. */
  predicate Good(s: PlayerState) {
    && s.source.duration > 0.0
    && 0.0 <= s.source.currentTime <= s.source.duration
    && 0.0 <= s.progressWidth <= 100.0
    && Progress.IsPercent(s.progressWidth, s.source.currentTime, s.source.duration)
    && Volume.VolumeInvariant(s)
    && Transport.PlayIconInSync(s)
    && Fullscreen.FullscreenInSync(s)
  }

  /** The state the page starts in once a medium of the given duration has
      loaded: the script's globals lastVolume = 1 and fullscreen = false, the
      element's defaults (paused, at 0, volume 1), and a play button and volume
      icon as the page's markup draws them. */
  function Start(duration: real): (s: PlayerState)
    ensures s.lastVolume == 1.0 && !s.fullscreen
    ensures s.source.duration == duration
  {
    PlayerState(
      source := Source(paused := true, currentTime := 0.0, duration := duration, volume := 1.0),
      playClasses := {"fas", PlayGlyph},
      playTitle := "Play",
      progressWidth := 0.0,
      elapsedText := "0:00 /",
      durationText := "0:00",
      volumeIcon := Solid(VolumeUp),
      volumeTitle := "Mute",
      volumeWidth := 100.0,
      lastVolume := 1.0,
      fullscreen := false,
      videoFullscreen := false)
  }

  /** Both invariants hold where the script starts, so each holds after any
      admissible sequence of events from there, run through its own controller. */
  lemma StartIsGood(duration: real, events: seq<Event>)
    requires duration > 0.0
    requires forall i :: 0 <= i < |events| ==> Admissible(duration, events[i])
    ensures Good(Start(duration)) && IntendedGood(Start(duration))
    ensures Good(Run(Start(duration), events))
    ensures IntendedGood(IntendedRun(Start(duration), events))
  {
  }

  lemma PositionUpdateKeepsGood(s: PlayerState, position: real)
    requires Good(s) && 0.0 <= position <= s.source.duration
    ensures Good(Progress.UpdateProgress(s.(source := s.source.(currentTime := position))))
  {
  }

  lemma ProgressClickKeepsGood(s: PlayerState, offsetX: real, width: real)
    requires Good(s) && 0.0 < width && 0.0 <= offsetX <= width
    ensures Good(Progress.SetProgress(s, offsetX, width))
  {
    Progress.SeekWithinTrack(s, offsetX, width);
  }

  /** Runs the handler an event triggers. */
  function Step(s: PlayerState, e: Event): (r: PlayerState)
    requires Good(s) && Admissible(s.source.duration, e)
    ensures Good(r)
    ensures r.source.duration == s.source.duration
  {
    match e
    case PlayClick => Transport.TogglePlay(s)
    case MediaEnded => Transport.Ended(s)
    case PositionUpdate(position) =>
      PositionUpdateKeepsGood(s, position);
      Progress.UpdateProgress(s.(source := s.source.(currentTime := position)))
    case ProgressClick(offsetX, width) =>
      ProgressClickKeepsGood(s, offsetX, width);
      Progress.SetProgress(s, offsetX, width)
    case VolumeClick(offsetX, width) =>
      Volume.ChangeVolumePreservesInvariant(s, offsetX, width);
      Volume.ChangeVolume(s, offsetX, width)
    case VolumeIconClick =>
      Volume.ToggleMutePreservesInvariant(s);
      Volume.ToggleMute(s)
    case FullscreenClick => Fullscreen.ToggleFullscreen(s).0
  }

  /** Runs a sequence of events in order. */
  function Run(s: PlayerState, events: seq<Event>): (r: PlayerState)
    requires Good(s)
    requires forall i :: 0 <= i < |events| ==> Admissible(s.source.duration, events[i])
    ensures Good(r)
    ensures r.source.duration == s.source.duration
    decreases |events|
  {
    if |events| == 0 then s else Run(Step(s, events[0]), events[1..])
  }

  function CountFullscreenClicks(events: seq<Event>): nat
    decreases |events|
  {
    if |events| == 0 then 0
    else (if events[0] == FullscreenClick then 1 else 0) + CountFullscreenClicks(events[1..])
  }

  /** Only the fullscreen button moves the fullscreen flag, and it always flips it. */
  lemma StepFullscreen(s: PlayerState, e: Event)
    requires Good(s) && Admissible(s.source.duration, e)
    ensures Step(s, e).fullscreen == (s.fullscreen != (e == FullscreenClick))
  {
  }

  /** The fullscreen flag is up exactly when it started up and an even number
      of fullscreen clicks came, or started down and an odd number came. */
  lemma {:induction false} RunFullscreenParity(s: PlayerState, events: seq<Event>)
    requires Good(s)
    requires forall i :: 0 <= i < |events| ==> Admissible(s.source.duration, events[i])
    ensures Run(s, events).fullscreen == (s.fullscreen != (CountFullscreenClicks(events) % 2 == 1))
    decreases |events|
  {
    if |events| > 0 {
      var next := RunFirst(s, events);
      RunFullscreenParity(next, events[1..]);
      ParityStep(s.fullscreen, events[0] == FullscreenClick, CountFullscreenClicks(events[1..]));
    }
  }

  /** Peels the first event off a run. */
  lemma RunFirst(s: PlayerState, events: seq<Event>) returns (next: PlayerState)
    requires Good(s) && |events| > 0
    requires forall i :: 0 <= i < |events| ==> Admissible(s.source.duration, events[i])
    ensures Good(next) && next.source.duration == s.source.duration
    ensures next.fullscreen == (s.fullscreen != (events[0] == FullscreenClick))
    ensures forall i :: 0 <= i < |events[1..]| ==> Admissible(next.source.duration, events[1..][i])
    ensures Run(s, events) == Run(next, events[1..])
  {
    next := Step(s, events[0]);
    StepFullscreen(s, events[0]);
    AdmissibleTail(s.source.duration, events);
  }

  /** Flipping once more adds one to the count of flips. */
  lemma ParityStep(start: bool, flip: bool, k: nat)
    ensures ((start != flip) != (k % 2 == 1))
         == (start != (((if flip then 1 else 0) + k) % 2 == 1))
  {
  }

  lemma AdmissibleTail(duration: real, events: seq<Event>)
    requires |events| > 0
    requires forall i :: 0 <= i < |events| ==> Admissible(duration, events[i])
    ensures forall i :: 0 <= i < |events[1..]| ==> Admissible(duration, events[1..][i])
  {
    forall i | 0 <= i < |events[1..]|
      ensures Admissible(duration, events[1..][i])
    {
      assert events[1..][i] == events[i + 1];
    }
  }

  /** Only the play button, the video click and the end of media change the
      paused flag; every other handler leaves it alone. */
  lemma PausedChangesOnlyByTransport(s: PlayerState, e: Event)
    requires Good(s) && Admissible(s.source.duration, e)
    requires !e.PlayClick? && !e.MediaEnded?
    ensures Step(s, e).source.paused == s.source.paused
  {
  }

  // ---------------------------------------------------------------------------
  // The controller with the two corrections to changeVolume.

  /** The invariant the corrected handlers keep: besides Good, unmuting always
      has a volume that can be heard to return to, and the volume icon always
      shows a glyph. */
  predicate IntendedGood(s: PlayerState) {
    Good(s) && Volume.AudibleLastVolume(s) && s.volumeIcon != Blank
  }

  /** Step with changeVolume replaced by its corrected form. */
  function IntendedStep(s: PlayerState, e: Event): (r: PlayerState)
    requires IntendedGood(s) && Admissible(s.source.duration, e)
    ensures IntendedGood(r)
    ensures r.source.duration == s.source.duration
    ensures e.VolumeIconClick? && s.source.volume == 0.0 ==> r.source.volume > 0.0
  {
    match e
    case VolumeClick(offsetX, width) =>
      Volume.IntendedChangeVolumeKeepsAudible(s, offsetX, width);
      Volume.IntendedChangeVolume(s, offsetX, width)
    case VolumeIconClick =>
      Volume.ToggleMuteKeepsAudible(s);
      Volume.ToggleMute(s)
    case _ => Step(s, e)
  }

  /** Runs a sequence of events through the corrected controller. */
  function IntendedRun(s: PlayerState, events: seq<Event>): (r: PlayerState)
    requires IntendedGood(s)
    requires forall i :: 0 <= i < |events| ==> Admissible(s.source.duration, events[i])
    ensures IntendedGood(r)
    ensures r.source.duration == s.source.duration
    decreases |events|
  {
    if |events| == 0 then s else IntendedRun(IntendedStep(s, events[0]), events[1..])
  }
}

=== FILE: decimal.dfy ===
/**
 Decimal rendering of non-negative integers, the way JavaScript's number to
 string conversion writes an integral value (below 10^21): the shortest string
 of decimal digits, with no leading zero except for the number zero itself.
 The module also gives the inverse reading, so that the rendering can be stated
 as one half of a round trip.
 */
module Decimal {

  predicate IsDigit(c: char) {
    '0' <= c <= '9'
  }

  predicate AllDigits(s: string) {
    forall i :: 0 <= i < |s| ==> IsDigit(s[i])
  }

  /** A non-empty digit string without superfluous leading zeros ("0" is canonical). */
  predicate Canonical(s: string) {
    |s| >= 1 && AllDigits(s) && (|s| > 1 ==> s[0] != '0')
  }

  function DigitChar(d: nat): (c: char)
    requires d < 10
    ensures IsDigit(c)
  {
    (d + '0' as int) as char
  }

  function DigitValue(c: char): (d: nat)
    requires IsDigit(c)
    ensures d < 10
  {
    c as int - '0' as int
  }

  lemma DigitCharValue(d: nat)
    requires d < 10
    ensures DigitValue(DigitChar(d)) == d
  {
  }

  lemma DigitValueChar(c: char)
    requires IsDigit(c)
    ensures DigitChar(DigitValue(c)) == c
  {
  }

  /** The value a string of decimal digits denotes, most significant digit first. */
  function ParseDigits(s: string): nat
    requires AllDigits(s)
    decreases |s|
  {
    if |s| == 0 then 0 else 10 * ParseDigits(s[..|s| - 1]) + DigitValue(s[|s| - 1])
  }

  /** `${n}` for a non-negative integral number n. */
  function NatToString(n: nat): (s: string)
    ensures Canonical(s)
    ensures |s| == 1 <==> n < 10
    ensures s[0] == '0' <==> n == 0
    decreases n
  {
    if n < 10 then [DigitChar(n)] else NatToString(n / 10) + [DigitChar(n % 10)]
  }

  /** Reading back the rendering gives the number. */
  lemma {:induction false} ParseNatToString(n: nat)
    ensures ParseDigits(NatToString(n)) == n
    decreases n
  {
    var s := NatToString(n);
    if n < 10 {
      DigitCharValue(n);
    } else {
      ParseNatToString(n / 10);
      assert s[..|s| - 1] == NatToString(n / 10);
      DigitCharValue(n % 10);
    }
  }

  /** A canonical digit string that does not start with '0' denotes a positive number. */
  lemma {:induction false} ParseDigitsPositive(s: string)
    requires Canonical(s) && s[0] != '0'
    ensures ParseDigits(s) >= 1
    decreases |s|
  {
    if |s| > 1 {
      var p := s[..|s| - 1];
      assert p[0] == s[0];
      ParseDigitsPositive(p);
    }
  }

  /** Every canonical digit string is the rendering of the number it denotes. */
  lemma {:induction false} NatToStringParse(s: string)
    requires Canonical(s)
    ensures NatToString(ParseDigits(s)) == s
    decreases |s|
  {
    var last := s[|s| - 1];
    DigitValueChar(last);
    if |s| == 1 {
      assert s == [last];
    } else {
      var p := s[..|s| - 1];
      assert p[0] == s[0];
      assert Canonical(p);
      ParseDigitsPositive(p);
      NatToStringParse(p);
      var n := ParseDigits(s);
      assert n / 10 == ParseDigits(p) && n % 10 == DigitValue(last);
      assert s == p + [last];
    }
  }

  /** Distinct numbers render as distinct strings. */
  lemma NatToStringInjective(a: nat, b: nat)
    ensures NatToString(a) == NatToString(b) <==> a == b
  {
    ParseNatToString(a);
    ParseNatToString(b);
  }
}

=== FILE: fullscreen.dfy ===
/**
 Fullscreen control: toggleFullscreen over the global fullscreen flag, with
 openFullscreen and closeFullscreen reduced to the request they hand to the
 platform and the 'video-fullscreen' class they set (script.js lines 129-175).
 */
module Fullscreen {
  import opened Player

  /** What the handler asks of the platform's fullscreen API. */
  datatype PresentationRequest = EnterFullscreen | ExitFullscreen

  /** The video element's layout class matches the flag. */
  predicate FullscreenInSync(s: PlayerState) {
    s.videoFullscreen == s.fullscreen
  }

  /** toggleFullscreen: opens when the flag is down, closes when it is up, and
      flips the flag whatever the platform made of the request. */
  function ToggleFullscreen(s: PlayerState): (r: (PlayerState, PresentationRequest))
    ensures r.0.fullscreen == !s.fullscreen
    ensures FullscreenInSync(r.0)
    ensures r.1 == EnterFullscreen <==> !s.fullscreen
    ensures r.0 == s.(fullscreen := r.0.fullscreen, videoFullscreen := r.0.videoFullscreen)
  {
    if !s.fullscreen then
      (s.(videoFullscreen := true, fullscreen := true), EnterFullscreen)
    else
      (s.(videoFullscreen := false, fullscreen := false), ExitFullscreen)
  }

  /** Two toggles restore the flag and the layout class, asking once to enter
      and once to exit. */
  lemma ToggleFullscreenTwice(s: PlayerState)
    requires FullscreenInSync(s)
    ensures ToggleFullscreen(ToggleFullscreen(s).0).0 == s
    ensures ToggleFullscreen(s).1 != ToggleFullscreen(ToggleFullscreen(s).0).1
  {
  }
}

=== FILE: player.dfy ===
/**
 The state the controller of script.js reads and writes: the media element's
 properties it touches, the widgets it restyles, and its two globals
 (lastVolume and fullscreen). Bar widths are the percentage numbers the
 handlers put in front of "%".
 */
module Player {

  /** The part of the HTML media element the controller reads and writes. */
  datatype Source = Source(paused: bool, currentTime: real, duration: real, volume: real)

  /** The Font Awesome glyph classes the volume icon can carry:
      fa-volume-up, fa-volume-down, fa-volume-off and fa-volume-mute. */
  datatype VolumeGlyph = VolumeUp | VolumeDown | VolumeOff | VolumeMute

  /** The volume icon's class list after a handler reset it: empty, or "fas" plus one glyph. */
  datatype VolumeIcon = Blank | Solid(glyph: VolumeGlyph)

  datatype PlayerState = PlayerState(
    source: Source,
    // play button: class list and title attribute
    playClasses: set<string>,
    playTitle: string,
    // progress bar width in percent, elapsed-time and duration labels
    progressWidth: real,
    elapsedText: string,
    durationText: string,
    // volume icon class list and title, volume bar width in percent
    volumeIcon: VolumeIcon,
    volumeTitle: string,
    volumeWidth: real,
    // the script's globals
    lastVolume: real,
    fullscreen: bool,
    // whether the video element carries the 'video-fullscreen' class
    videoFullscreen: bool
  )

  const PlayGlyph := "fa-play"
  const PauseGlyph := "fa-pause"
}

=== FILE: progress.dfy ===
/**
 Progress tracking: updateProgress (the 'timeupdate' and 'canplay' listener)
 and setProgress (a click on the progress track), script.js lines 48-66.
 Positions and widths are exact reals; the track width and the duration are
 taken positive (a loaded medium on a laid-out page).
 */
module Progress {
  import opened Player
  import opened TimeFormat

  /** p is the percentage that part makes of whole. */
  predicate IsPercent(p: real, part: real, whole: real) {
    p * whole == 100.0 * part
  }

  /** A positive whole determines the percentage of each part. */
  lemma PercentUnique(p1: real, p2: real, part: real, whole: real)
    requires whole > 0.0 && IsPercent(p1, part, whole) && IsPercent(p2, part, whole)
    ensures p1 == p2
  {
    assert (p1 - p2) * whole == 0.0;
  }

  /** The percentage a part of a positive whole makes, and its bounds. */
  function Percent(part: real, whole: real): (p: real)
    requires whole > 0.0
    ensures IsPercent(p, part, whole)
    ensures 0.0 <= part ==> 0.0 <= p
    ensures part <= whole ==> p <= 100.0
  {
    var f := part / whole;
    assert f * whole == part;
    assert part <= whole ==> f <= 1.0;
    f * 100.0
  }

  /** updateProgress: the bar shows the fraction played, the labels show
      the elapsed time followed by " /" and the total duration. */
  function UpdateProgress(s: PlayerState): (r: PlayerState)
    requires s.source.duration > 0.0 && s.source.currentTime >= 0.0
    ensures IsPercent(r.progressWidth, s.source.currentTime, s.source.duration)
    ensures s.source.currentTime <= s.source.duration ==> 0.0 <= r.progressWidth <= 100.0
    ensures |r.elapsedText| >= 2 && r.elapsedText[|r.elapsedText| - 2..] == " /"
    ensures ShowsTime(r.elapsedText[..|r.elapsedText| - 2], s.source.currentTime)
    ensures ShowsTime(r.durationText, s.source.duration)
    ensures r == s.(progressWidth := r.progressWidth, elapsedText := r.elapsedText, durationText := r.durationText)
  {
    var width := Percent(s.source.currentTime, s.source.duration);
    var elapsed := DisplayTime(s.source.currentTime) + " /";
    assert elapsed[..|elapsed| - 2] == DisplayTime(s.source.currentTime);
    s.(progressWidth := width,
       elapsedText := elapsed,
       durationText := DisplayTime(s.source.duration))
  }

  /** setProgress: a click offsetX pixels into a track width pixels wide seeks
      to that fraction of the duration and sets the bar to that fraction. */
  function SetProgress(s: PlayerState, offsetX: real, width: real): (r: PlayerState)
    requires width > 0.0
    ensures IsPercent(r.progressWidth, offsetX, width)
    ensures IsPercent(r.progressWidth, r.source.currentTime, s.source.duration)
    ensures r == s.(source := s.source.(currentTime := r.source.currentTime), progressWidth := r.progressWidth)
  {
    var fraction := offsetX / width;
    assert fraction * width == offsetX;
    s.(progressWidth := fraction * 100.0,
       source := s.source.(currentTime := fraction * s.source.duration))
  }

  /** A click inside the track seeks inside the medium and keeps the bar within 0..100. */
  lemma SeekWithinTrack(s: PlayerState, offsetX: real, width: real)
    requires width > 0.0 && 0.0 <= offsetX <= width && s.source.duration >= 0.0
    ensures 0.0 <= SetProgress(s, offsetX, width).source.currentTime <= s.source.duration
    ensures 0.0 <= SetProgress(s, offsetX, width).progressWidth <= 100.0
  {
    var f := offsetX / width;
    assert 0.0 <= f <= 1.0;
    assert f * s.source.duration <= 1.0 * s.source.duration;
  }

  /** Clicking further along the track never seeks to an earlier position. */
  lemma SeekMonotonic(s: PlayerState, x1: real, x2: real, width: real)
    requires width > 0.0 && x1 <= x2 && s.source.duration >= 0.0
    ensures SetProgress(s, x1, width).source.currentTime <= SetProgress(s, x2, width).source.currentTime
  {
    assert x1 / width <= x2 / width;
    assert (x1 / width) * s.source.duration <= (x2 / width) * s.source.duration;
  }

  /** After a seek, the next position update redraws the bar at the width the click gave it. */
  lemma SeekThenUpdateAgree(s: PlayerState, offsetX: real, width: real)
    requires width > 0.0 && offsetX >= 0.0 && s.source.duration > 0.0
    ensures SetProgress(s, offsetX, width).source.currentTime >= 0.0
    ensures UpdateProgress(SetProgress(s, offsetX, width)).progressWidth
         == SetProgress(s, offsetX, width).progressWidth
  {
    var seek := SetProgress(s, offsetX, width);
    var f := offsetX / width;
    assert f >= 0.0;
    assert seek.source.currentTime >= 0.0;
    var update := UpdateProgress(seek);
    PercentUnique(update.progressWidth, seek.progressWidth, seek.source.currentTime, s.source.duration);
  }
}

=== FILE: time_format.dfy ===
/**
 The "M:SS" clock text shown in the elapsed-time and duration labels
 (displayTime in script.js). Times are exact reals; JavaScript's Math.floor
 and the `%` operator on numbers are written out explicitly, `%` through the
 truncation of its quotient toward zero.
 */
module TimeFormat {
  import opened Decimal

  datatype Option<T> = None | Some(value: T)

  /** The truncation toward zero inside JavaScript's `%`: the integer next to
      x on the side of zero. */
  function Trunc(x: real): (n: int)
    ensures 0.0 <= x ==> n as real <= x < n as real + 1.0
    ensures x < 0.0 ==> n as real - 1.0 < x <= n as real
    ensures x >= 0.0 ==> n == x.Floor
  {
    if x >= 0.0 then x.Floor else -((-x).Floor)
  }

  /** JavaScript's `a % b` on numbers: what is left of a after taking away a
      whole multiple of b, with the sign of the dividend and smaller than b. */
  function JsRem(a: real, b: real): (r: real)
    requires b != 0.0
    ensures ((a - r) / b).Floor as real == (a - r) / b
    ensures b > 0.0 && a >= 0.0 ==> 0.0 <= r < b
    ensures b > 0.0 && a < 0.0 ==> -b < r <= 0.0
  {
    RemainderOfTrunc(a, b, Trunc(a / b));
    a - b * Trunc(a / b) as real
  }

  /** Taking the truncated quotient's multiple away leaves a remainder with
      the dividend's sign, below the divisor. */
  lemma RemainderOfTrunc(a: real, b: real, q: int)
    requires b != 0.0 && q == Trunc(a / b)
    ensures ((a - (a - b * q as real)) / b).Floor as real == (a - (a - b * q as real)) / b
    ensures b > 0.0 && a >= 0.0 ==> 0.0 <= a - b * q as real < b
    ensures b > 0.0 && a < 0.0 ==> -b < a - b * q as real <= 0.0
  {
    var k := q as real;
    WholeMultiple(a, b, k);
    assert k.Floor == q;
    if b > 0.0 {
      QuotientSign(a, b);
      if a >= 0.0 {
        RemainderAbove(a, b, k);
      } else {
        RemainderBelow(a, b, k);
      }
    }
  }

  /** A quotient at or above k, by less than one, leaves a remainder in [0, b). */
  lemma RemainderAbove(a: real, b: real, k: real)
    requires b > 0.0 && k <= a / b < k + 1.0
    ensures 0.0 <= a - b * k < b
  {
    ScaleLowerBound(a, b, k);
    ScaleStrictUpper(a, b, k + 1.0);
    assert b * (k + 1.0) == b * k + b;
  }

  /** A quotient at or below k, by less than one, leaves a remainder in (-b, 0]. */
  lemma RemainderBelow(a: real, b: real, k: real)
    requires b > 0.0 && k - 1.0 < a / b <= k
    ensures -b < a - b * k <= 0.0
  {
    ScaleStrictLower(a, b, k - 1.0);
    ScaleUpperBound(a, b, k);
    assert b * (k - 1.0) == b * k - b;
  }

  // Bounds on a / b carried over to a, for a positive b.

  lemma ScaleLowerBound(a: real, b: real, k: real)
    requires b > 0.0 && k <= a / b
    ensures b * k <= a
  {
    QuotientTimesDivisor(a, b);
    MulNonStrict(b, k, a / b);
  }

  lemma ScaleUpperBound(a: real, b: real, k: real)
    requires b > 0.0 && a / b <= k
    ensures a <= b * k
  {
    QuotientTimesDivisor(a, b);
    MulNonStrict(b, a / b, k);
  }

  lemma ScaleStrictUpper(a: real, b: real, y: real)
    requires b > 0.0 && a / b < y
    ensures a < b * y
  {
    QuotientTimesDivisor(a, b);
    MulStrict(b, a / b, y);
  }

  lemma ScaleStrictLower(a: real, b: real, y: real)
    requires b > 0.0 && y < a / b
    ensures b * y < a
  {
    QuotientTimesDivisor(a, b);
    MulStrict(b, y, a / b);
  }

  /** Removing the remainder a - b * k from a leaves k times b. */
  lemma WholeMultiple(a: real, b: real, k: real)
    requires b != 0.0
    ensures (a - (a - b * k)) / b == k
  {
    assert a - (a - b * k) == b * k;
  }

  lemma QuotientTimesDivisor(a: real, b: real)
    requires b != 0.0
    ensures b * (a / b) == a
  {
  }

  lemma QuotientSign(a: real, b: real)
    requires b > 0.0
    ensures a >= 0.0 <==> a / b >= 0.0
  {
  }

  /** Multiplying by a positive number keeps a strict order ... */
  lemma MulStrict(b: real, u: real, v: real)
    requires b > 0.0 && u < v
    ensures b * u < b * v
  {
    assert b * (v - u) > 0.0;
  }

  /** ... and a weak one. */
  lemma MulNonStrict(b: real, u: real, v: real)
    requires b > 0.0 && u <= v
    ensures b * u <= b * v
  {
    assert b * (v - u) >= 0.0;
  }

  /** Math.floor(time / 60): the whole minutes in the whole seconds elapsed. */
  function Minutes(t: real): (m: nat)
    requires t >= 0.0
    ensures 60 * m <= t.Floor < 60 * m + 60
  {
    (t / 60.0).Floor
  }

  lemma RemainderBounds(t: real)
    requires t >= 0.0
    ensures 0.0 <= JsRem(t, 60.0) < 60.0
    ensures JsRem(t, 60.0) == t - 60.0 * Minutes(t) as real
  {
    var m := Minutes(t) as real;
    assert m <= t / 60.0 < m + 1.0;
    assert 60.0 * m <= t < 60.0 * m + 60.0;
  }

  /** Math.floor(time % 60) */
  function Seconds(t: real): (sec: nat)
    requires t >= 0.0
    ensures sec < 60
  {
    RemainderBounds(t);
    JsRem(t, 60.0).Floor
  }

  /** Minutes and seconds split the whole seconds elapsed, with seconds below a minute. */
  lemma ClockDecomposition(t: real)
    requires t >= 0.0
    ensures 60 * Minutes(t) + Seconds(t) == t.Floor
  {
    RemainderBounds(t);
    var m := Minutes(t);
    var sec := Seconds(t);
    assert sec as real <= t - 60.0 * m as real < sec as real + 1.0;
    var whole := 60 * m + sec;
    assert whole as real <= t < whole as real + 1.0;
  }

  /** The seconds field: two digits, a leading '0' added below ten. */
  function PadSeconds(sec: nat): (s: string)
    requires sec < 60
    ensures |s| == 2 && AllDigits(s)
    ensures ParseDigits(s) == sec
  {
    ParseNatToString(sec);
    if sec > 9 then NatToString(sec) else "0" + NatToString(sec)
  }

  /** The text displayTime builds from its minutes and seconds. */
  function FormatClock(minutes: nat, sec: nat): (c: string)
    requires sec < 60
    ensures |c| >= 4 && c[|c| - 3] == ':'
    ensures Canonical(c[..|c| - 3]) && AllDigits(c[|c| - 2..])
  {
    assert (NatToString(minutes) + ":" + PadSeconds(sec))[..|NatToString(minutes)|] == NatToString(minutes);
    NatToString(minutes) + ":" + PadSeconds(sec)
  }

  /** Reads "M:SS" text back: M canonical decimal, SS two digits below 60. */
  function ParseClock(s: string): Option<(nat, nat)> {
    if |s| < 4 || s[|s| - 3] != ':' then None
    else
      var m := s[..|s| - 3];
      var sec := s[|s| - 2..];
      if Canonical(m) && AllDigits(sec) && ParseDigits(sec) < 60
      then Some((ParseDigits(m), ParseDigits(sec)))
      else None
  }

  /** The text reads as whole minutes and seconds whose total is the whole seconds of t. */
  predicate ShowsTime(text: string, t: real) {
    match ParseClock(text)
    case None => false
    case Some(p) => p.1 < 60 && 60 * p.0 + p.1 == t.Floor
  }

  lemma {:induction false} ParseFormatClock(minutes: nat, sec: nat)
    requires sec < 60
    ensures ParseClock(FormatClock(minutes, sec)) == Some((minutes, sec))
  {
    var s := FormatClock(minutes, sec);
    var m := NatToString(minutes);
    var p := PadSeconds(sec);
    assert s[..|s| - 3] == m;
    assert s[|s| - 2..] == p;
    assert s[|s| - 3] == ':';
    ParseNatToString(minutes);
  }

  lemma TwoDigitsValue(s: string)
    requires |s| == 2 && AllDigits(s)
    ensures ParseDigits(s) == 10 * DigitValue(s[0]) + DigitValue(s[1])
  {
    assert s[..1] == [s[0]];
    assert ParseDigits(s[..1]) == DigitValue(s[0]);
  }

  /** Whole minutes and seconds below a minute are determined by their total. */
  lemma ClockUnique(m1: nat, s1: nat, m2: nat, s2: nat)
    requires s1 < 60 && s2 < 60 && 60 * m1 + s1 == 60 * m2 + s2
    ensures m1 == m2 && s1 == s2
  {
  }

  lemma {:induction false} FormatParseClock(s: string)
    requires ParseClock(s).Some?
    ensures FormatClock(ParseClock(s).value.0, ParseClock(s).value.1) == s
  {
    var m := s[..|s| - 3];
    var secText := s[|s| - 2..];
    var sec := ParseDigits(secText);
    NatToStringParse(m);
    TwoDigitsValue(secText);
    if sec > 9 {
      NatToStringParse(secText);
    } else {
      DigitValueChar(secText[1]);
      assert secText == "0" + NatToString(DigitValue(secText[1]));
    }
    assert PadSeconds(sec) == secText;
    assert s == m + ":" + secText;
  }

  /** displayTime: "M:SS", minutes unpadded and seconds padded to two digits. */
  function DisplayTime(t: real): (r: string)
    requires t >= 0.0
    ensures ShowsTime(r, t)
    ensures ParseClock(r) == Some((Minutes(t), Seconds(t)))
  {
    ParseFormatClock(Minutes(t), Seconds(t));
    ClockDecomposition(t);
    FormatClock(Minutes(t), Seconds(t))
  }

  /** Any two texts that show the same time are the same text. */
  lemma ShowsTimeUnique(text: string, t: real)
    requires t >= 0.0 && ShowsTime(text, t)
    ensures text == DisplayTime(t)
  {
    var p := ParseClock(text).value;
    ClockDecomposition(t);
    var m := Minutes(t);
    var sec := Seconds(t);
    ClockUnique(p.0, p.1, m, sec);
    FormatParseClock(text);
  }

  lemma DisplayTimeExamples()
    ensures DisplayTime(0.0) == "0:00"
    ensures DisplayTime(65.0) == "1:05"
    ensures DisplayTime(600.0) == "10:00"
    ensures DisplayTime(59.9) == "0:59"
  {
    DisplayTimeAt(0.0, 0, 0);
    DisplayTimeAt(65.0, 1, 5);
    DisplayTimeAt(600.0, 10, 0);
    DisplayTimeAt(59.9, 0, 59);
    assert NatToString(10) == "10" by {
      assert NatToString(10) == NatToString(1) + [DigitChar(0)];
    }
  }

  /** The text for a time whose minutes and seconds are known. */
  lemma DisplayTimeAt(t: real, minutes: nat, sec: nat)
    requires t >= 0.0 && sec < 60
    requires 60 * minutes + sec <= t.Floor < 60 * minutes + sec + 1
    ensures DisplayTime(t) == FormatClock(minutes, sec)
  {
    ClockDecomposition(t);
    ClockUnique(Minutes(t), Seconds(t), minutes, sec);
  }
}

=== FILE: transport.dfy ===
/**
 Play/pause control: togglePlay, showPlayIcon and the media element's 'ended'
 notification (script.js lines 16-33). The play button's class list is a set of
 names, and classList.replace is modelled as the DOM defines it: it swaps the
 old token for the new one only when the old token is present.
 */
module Transport {
  import opened Player

  /** DOMTokenList.replace(old, new) on a set of class names. */
  function ReplaceClass(classes: set<string>, token: string, replacement: string): (r: set<string>)
    ensures token in classes ==> replacement in r && (token != replacement ==> token !in r)
    ensures token !in classes ==> r == classes
    ensures forall c :: c in classes && c != token ==> c in r
    ensures forall c :: c in r ==> c in classes || c == replacement
  {
    if token in classes then classes - {token} + {replacement} else classes
  }

  /** The button shows exactly one of the play and pause glyphs. */
  predicate PlayIconWellFormed(s: PlayerState) {
    (PlayGlyph in s.playClasses) != (PauseGlyph in s.playClasses)
  }

  /** The button offers the action the media element is ready for:
      the pause glyph and title "Pause" exactly while it is playing. */
  predicate PlayIconInSync(s: PlayerState) {
    && PlayIconWellFormed(s)
    && (PauseGlyph in s.playClasses <==> !s.source.paused)
    && s.playTitle == (if s.source.paused then "Play" else "Pause")
  }

  /** showPlayIcon: the pause glyph becomes the play glyph, the title "Play". */
  function ShowPlayIcon(s: PlayerState): (r: PlayerState)
    ensures PauseGlyph !in r.playClasses
    ensures PlayGlyph in r.playClasses <==> PlayGlyph in s.playClasses || PauseGlyph in s.playClasses
    ensures PlayIconWellFormed(s) ==> PlayIconWellFormed(r)
    ensures forall c :: c in s.playClasses && c != PauseGlyph ==> c in r.playClasses
    ensures forall c :: c in r.playClasses ==> c in s.playClasses || c == PlayGlyph
    ensures r.playTitle == "Play"
    ensures r == s.(playClasses := r.playClasses, playTitle := r.playTitle)
  {
    s.(playClasses := ReplaceClass(s.playClasses, PauseGlyph, PlayGlyph), playTitle := "Play")
  }

  /** togglePlay: a paused element is played and the button offers "Pause";
      a playing one is paused and the button goes back to "Play". */
  function TogglePlay(s: PlayerState): (r: PlayerState)
    ensures r.source.paused == !s.source.paused
    ensures PlayIconWellFormed(s) ==> PlayIconInSync(r)
    ensures r.playTitle == (if s.source.paused then "Pause" else "Play")
    ensures forall c :: c in s.playClasses && c != PlayGlyph && c != PauseGlyph ==> c in r.playClasses
    ensures forall c :: c in r.playClasses ==> c in s.playClasses || c == PlayGlyph || c == PauseGlyph
    ensures r == s.(source := r.source, playClasses := r.playClasses, playTitle := r.playTitle)
    ensures r.source == s.source.(paused := r.source.paused)
  {
    if s.source.paused then
      s.(source := s.source.(paused := false),
         playClasses := ReplaceClass(s.playClasses, PlayGlyph, PauseGlyph),
         playTitle := "Pause")
    else
      ShowPlayIcon(s.(source := s.source.(paused := true)))
  }

  /** The media element reaching its end: the platform leaves it paused, then
      the 'ended' listener runs showPlayIcon. */
  function Ended(s: PlayerState): (r: PlayerState)
    ensures r.source.paused
    ensures PlayIconWellFormed(s) ==> PlayIconInSync(r)
    ensures r.playTitle == "Play" && PauseGlyph !in r.playClasses
    ensures PlayGlyph in r.playClasses <==> PlayGlyph in s.playClasses || PauseGlyph in s.playClasses
    ensures forall c :: c in s.playClasses && c != PauseGlyph ==> c in r.playClasses
    ensures forall c :: c in r.playClasses ==> c in s.playClasses || c == PlayGlyph
    ensures r == s.(source := r.source, playClasses := r.playClasses, playTitle := r.playTitle)
  {
    ShowPlayIcon(s.(source := s.source.(paused := true)))
  }

  /** On a button that matches the element, two toggles give back the same state. */
  lemma TogglePlayInvolution(s: PlayerState)
    requires PlayIconInSync(s)
    ensures TogglePlay(TogglePlay(s)) == s
  {
    var r := TogglePlay(TogglePlay(s));
    assert r.playClasses == s.playClasses;
  }

  /** A paused element's button reads "Pause" after one toggle and "Play" after two. */
  lemma TogglePlayTitles(s: PlayerState)
    requires PlayIconInSync(s) && s.source.paused
    ensures TogglePlay(s).playTitle == "Pause" && PauseGlyph in TogglePlay(s).playClasses
    ensures TogglePlay(TogglePlay(s)).playTitle == "Play"
    ensures PlayGlyph in TogglePlay(TogglePlay(s)).playClasses
  {
  }

  /** Whatever the button showed, showPlayIcon leaves the same button as the end of media does. */
  lemma ShowPlayIconIdempotent(s: PlayerState)
    ensures ShowPlayIcon(ShowPlayIcon(s)) == ShowPlayIcon(s)
  {
  }
}

=== FILE: volume.dfy ===
/**
 Volume control: toggleMute (a click on the volume icon) and changeVolume (a
 click on the volume track), script.js lines 71-117, over the global
 lastVolume. Volumes are exact reals; the media element accepts volumes in
 0..1 and throws outside that range, so the handlers' values are shown to stay
 inside it.
 */
module Volume {
  import opened Player

  /** The range HTMLMediaElement.volume accepts without throwing. */
  predicate ValidVolume(v: real) {
    0.0 <= v <= 1.0
  }

  /** Snapping a click fraction: below 0.1 it becomes 0, then above 0.9 it becomes 1. */
  function Snap(fraction: real): (v: real)
    ensures v == 0.0 || v == 1.0 || 0.1 <= v <= 0.9
    ensures ValidVolume(v)
    ensures v == fraction <==> 0.1 <= fraction <= 0.9 || fraction == 0.0 || fraction == 1.0
    ensures v == 0.0 <==> fraction < 0.1
    ensures v == 1.0 <==> fraction > 0.9 || fraction == 1.0
  {
    var low := if fraction < 0.1 then 0.0 else fraction;
    if low > 0.9 then 1.0 else low
  }

  /** The icon changeVolume picks after clearing the class list. Its three
      branches leave out exactly 0.7 (and negative values, which snapping
      never produces). */
  function IconForVolume(v: real): (icon: VolumeIcon)
    ensures icon == Solid(VolumeUp) <==> v > 0.7
    ensures icon == Solid(VolumeDown) <==> 0.0 < v < 0.7
    ensures icon == Solid(VolumeOff) <==> v == 0.0
    ensures icon == Blank <==> v == 0.7 || v < 0.0
  {
    if v > 0.7 then Solid(VolumeUp)
    else if v < 0.7 && v > 0.0 then Solid(VolumeDown)
    else if v == 0.0 then Solid(VolumeOff)
    else Blank
  }

  /** changeVolume: the click fraction, snapped, becomes the element's volume,
      the bar's width in percent and lastVolume; the icon shows its tier. */
  function ChangeVolume(s: PlayerState, offsetX: real, width: real): (r: PlayerState)
    requires width > 0.0
    ensures ValidVolume(r.source.volume)
    ensures r.source.volume == Snap(offsetX / width)
    ensures r.lastVolume == r.source.volume && r.volumeWidth == 100.0 * r.source.volume
    ensures r.volumeIcon == IconForVolume(r.source.volume)
    ensures r == s.(source := s.source.(volume := r.source.volume), volumeWidth := r.volumeWidth,
                    volumeIcon := r.volumeIcon, lastVolume := r.lastVolume)
  {
    var v := Snap(offsetX / width);
    s.(volumeWidth := v * 100.0,
       source := s.source.(volume := v),
       volumeIcon := IconForVolume(v),
       lastVolume := v)
  }

  /** toggleMute: a sounding element is muted and its volume saved in lastVolume;
      a silent one gets lastVolume back. */
  function ToggleMute(s: PlayerState): (r: PlayerState)
    ensures s.source.volume != 0.0 ==>
      && r.source.volume == 0.0 && r.lastVolume == s.source.volume
      && r.volumeIcon == Solid(VolumeMute) && r.volumeTitle == "Unmute" && r.volumeWidth == 0.0
    ensures s.source.volume == 0.0 ==>
      && r.source.volume == s.lastVolume && r.lastVolume == s.lastVolume
      && r.volumeIcon == Solid(VolumeUp) && r.volumeTitle == "Mute"
      && r.volumeWidth == 100.0 * s.lastVolume
    ensures r == s.(source := s.source.(volume := r.source.volume), volumeWidth := r.volumeWidth,
                    volumeIcon := r.volumeIcon, volumeTitle := r.volumeTitle, lastVolume := r.lastVolume)
  {
    if s.source.volume != 0.0 then
      s.(lastVolume := s.source.volume,
         source := s.source.(volume := 0.0),
         volumeIcon := Solid(VolumeMute),
         volumeTitle := "Unmute",
         volumeWidth := 0.0)
    else
      s.(source := s.source.(volume := s.lastVolume),
         volumeIcon := Solid(VolumeUp),
         volumeTitle := "Mute",
         volumeWidth := s.lastVolume * 100.0)
  }

  /** Volume, lastVolume and the bar stay in range, the bar matching the volume. */
  predicate VolumeInvariant(s: PlayerState) {
    && ValidVolume(s.source.volume)
    && ValidVolume(s.lastVolume)
    && s.volumeWidth == 100.0 * s.source.volume
  }

  lemma ChangeVolumePreservesInvariant(s: PlayerState, offsetX: real, width: real)
    requires width > 0.0
    ensures VolumeInvariant(ChangeVolume(s, offsetX, width))
  {
  }

  lemma ToggleMutePreservesInvariant(s: PlayerState)
    requires VolumeInvariant(s)
    ensures VolumeInvariant(ToggleMute(s))
  {
  }

  /** Snapping twice is snapping once. */
  lemma SnapIdempotent(fraction: real)
    ensures Snap(Snap(fraction)) == Snap(fraction)
  {
  }

  /** Muting and then unmuting gives back the volume, the bar and lastVolume
      the element had, with the title back at "Mute". */
  lemma MuteUnmuteRoundTrip(s: PlayerState)
    requires s.source.volume != 0.0
    ensures ToggleMute(ToggleMute(s)).source == s.source
    ensures ToggleMute(ToggleMute(s)).lastVolume == s.source.volume
    ensures ToggleMute(ToggleMute(s)).volumeWidth == 100.0 * s.source.volume
    ensures ToggleMute(ToggleMute(s)).volumeTitle == "Mute"
  {
  }

  /** Unmuting then muting a silent element gives back silence and the same lastVolume
      whenever lastVolume is not zero. */
  lemma UnmuteMuteRoundTrip(s: PlayerState)
    requires s.source.volume == 0.0 && s.lastVolume != 0.0
    ensures ToggleMute(ToggleMute(s)).source == s.source
    ensures ToggleMute(ToggleMute(s)).lastVolume == s.lastVolume
    ensures ToggleMute(ToggleMute(s)).volumeTitle == "Unmute"
  {
  }

  // ---------------------------------------------------------------------------
  // The icon at exactly 0.7.

  /** As written: a click at 70% of the track leaves the icon with no class at all. */
  lemma SeventyPercentClearsIcon(s: PlayerState, offsetX: real, width: real)
    requires width > 0.0 && offsetX == 0.7 * width
    ensures ChangeVolume(s, offsetX, width).source.volume == 0.7
    ensures ChangeVolume(s, offsetX, width).volumeIcon == Blank
  {
    assert offsetX / width == 0.7;
  }

  /** The corrected tiers: high above 0.7, low up to and including 0.7, off
      at zero. */
  function IntendedIconForVolume(v: real): (icon: VolumeIcon)
    requires ValidVolume(v)
    ensures icon != Blank
    ensures icon == Solid(VolumeUp) <==> v > 0.7
    ensures icon == Solid(VolumeDown) <==> 0.0 < v <= 0.7
    ensures icon == Solid(VolumeOff) <==> v == 0.0
  {
    if v > 0.7 then Solid(VolumeUp)
    else if v > 0.0 then Solid(VolumeDown)
    else Solid(VolumeOff)
  }

  /** The corrected tiers agree with the written ones everywhere but at 0.7. */
  lemma IntendedIconAgreesOffSeventy(v: real)
    requires ValidVolume(v)
    ensures v != 0.7 <==> IntendedIconForVolume(v) == IconForVolume(v)
  {
  }

  // ---------------------------------------------------------------------------
  // lastVolume after a click that snaps to zero.

  /** As written: after a click snaps the volume to 0, lastVolume is 0 too, so
      unmuting leaves the element silent while the icon shows fa-volume-up and
      the title offers "Mute". */
  lemma UnmuteAfterSnapToZeroIsSilent(s: PlayerState, offsetX: real, width: real)
    requires width > 0.0 && offsetX < 0.1 * width
    ensures ToggleMute(ChangeVolume(s, offsetX, width)).source.volume == 0.0
    ensures ToggleMute(ChangeVolume(s, offsetX, width)).volumeIcon == Solid(VolumeUp)
    ensures ToggleMute(ChangeVolume(s, offsetX, width)).volumeTitle == "Mute"
  {
    assert offsetX / width < 0.1;
  }

  /** changeVolume, corrected: a zero volume is not recorded in lastVolume, so
      the volume to unmute to is kept; the icon uses the corrected tiers. */
  function IntendedChangeVolume(s: PlayerState, offsetX: real, width: real): (r: PlayerState)
    requires width > 0.0
    ensures r.source.volume == Snap(offsetX / width)
    ensures r.volumeWidth == 100.0 * r.source.volume
    ensures r.lastVolume == if r.source.volume == 0.0 then s.lastVolume else r.source.volume
    ensures r.volumeIcon != Blank
    ensures r.volumeIcon == IntendedIconForVolume(r.source.volume)
    ensures r == s.(source := s.source.(volume := r.source.volume), volumeWidth := r.volumeWidth,
                    volumeIcon := r.volumeIcon, lastVolume := r.lastVolume)
  {
    var v := Snap(offsetX / width);
    s.(volumeWidth := v * 100.0,
       source := s.source.(volume := v),
       volumeIcon := IntendedIconForVolume(v),
       lastVolume := if v == 0.0 then s.lastVolume else v)
  }

  /** What unmuting relies on: lastVolume is a volume that can be heard. */
  predicate AudibleLastVolume(s: PlayerState) {
    VolumeInvariant(s) && 0.0 < s.lastVolume
  }

  lemma IntendedChangeVolumeKeepsAudible(s: PlayerState, offsetX: real, width: real)
    requires width > 0.0 && AudibleLastVolume(s)
    ensures AudibleLastVolume(IntendedChangeVolume(s, offsetX, width))
  {
  }

  lemma ToggleMuteKeepsAudible(s: PlayerState)
    requires AudibleLastVolume(s)
    ensures AudibleLastVolume(ToggleMute(s))
  {
  }

  /** With the corrected handler, unmuting after any click always restores a
      volume that can be heard. */
  lemma IntendedUnmuteIsAudible(s: PlayerState, offsetX: real, width: real)
    requires width > 0.0 && AudibleLastVolume(s)
    requires IntendedChangeVolume(s, offsetX, width).source.volume == 0.0
    ensures ToggleMute(IntendedChangeVolume(s, offsetX, width)).source.volume > 0.0
  {
  }
}
